=== FILE: README.md ===
# sml2-data integrity checks, in Dafny

The sml2-data repository holds three hand-written JSON tables about the
enemies and levels of a game:

- `enemies.json`: enemies, each with a name and four boolean flags.
- `levels.json`: levels, each a zone and stage with four collectible counts.
- `enemy_level.json`: rows saying that an enemy appears some number of times
  in the stage of a zone.

`json_test.js` checks the tables. It defines a tiny `test(name, fn)` runner
and four assertion helpers. It then declares twelve tests:

- Each table is an array.
- Every record has all its fields, and each field has data of the right kind.
- Enemy names are unique.
- A zone never holds the same stage twice.
- There are exactly seven distinct zones.
- Every appearance row names an existing enemy and an existing level.
- Every enemy appears in some row.

This project models that file and proves what each test means.

The model has two layers.

- The JSON layer: `JsValues` gives JSON values and the JavaScript operations
  the checks use.
  - A property read yields `undefined` for a missing key and throws on `null`.
  - `typeof` is modelled.
  - `===` is strict equality: two objects or arrays are never equal, because
    every parsed record is a distinct allocation.
  - `includes` is modelled.
  - A template literal converts a value to a string. It throws on an object
    with its own "toString" key, or on an array holding such an object.
- Completions: `Completions` gives the outcome of running a check body,
  normal completion or a thrown `Error` or `TypeError`. It also gives the
  array methods the checks call:
  - `forEach` stops at the first throw.
  - `find` returns the first match.
  - `in` throws on a primitive.
- Checks: `Assertions` models the helpers. `Checks` models each of the twelve
  check bodies on a `Dataset` of three arbitrary JSON values. The assertions
  run in the same order, so the same error is thrown first. This includes
  the `TypeError` a message template throws when it converts an object that
  has its own "toString" key. `Runner` models `test`. `Catalog` lists the
  twelve tests in file order.
- The typed layer: `Tables` gives the tables as typed records. `Encode` writes
  them out as JSON. For data written out this way each check is proved
  equivalent to a plain statement about the records, such as "all names
  differ" or "every row names an existing enemy and level".
- The result: `Catalog.RunPassesIffValid` says the file reports a pass on
  every test exactly when the tables meet all the invariants together.

## Model

| member | source | states |
|---|---|---|
| `Runner.Execute` | json_test.js:5-13 | A test passes exactly when its body completes. When it fails, the reported error is the one the body threw, and the report keeps the test's name. |
| `Runner.Run` | json_test.js:5-13 | One report per test, in declaration order. Report `i` depends on test `i` alone, so a failing test never stops or alters a later one. |
| `Runner.RunAppend` | json_test.js:5-13 | Running two lists of tests back to back gives the concatenation of their reports. The runner keeps no state between tests. |
| `Runner.AllPassIffEveryCheck` | json_test.js:5-13 | When every check is in the list, the run is all passes exactly when every check completes on the data. |
| `Assertions.Assert` | json_test.js:15-17 | Completes exactly when the predicate holds. Otherwise it throws an assertion error carrying the message. |
| `Assertions.AssertObject` | json_test.js:19-21 | Completes exactly for JSON objects and arrays. `null` and primitives fail. |
| `Assertions.AssertAmount` | json_test.js:23-25 | Completes exactly for a present number that is at least zero. A missing field, a string or a negative number fails. |
| `Assertions.AssertName` | json_test.js:27-29 | Completes exactly for a present, non-empty string. |
| `Assertions.AssertHasAll` | json_test.js:42-46 | The `'key' in record` assertions all hold exactly when the record is an object or array and `in` yields true for every key. On a primitive, `in` throws instead. |
| `Completions.ForEach` | json_test.js:40-47 | `forEach` completes exactly when the body completes on every element. Otherwise its outcome is the throw of the first element whose body throws. |
| `Completions.Pairwise` | json_test.js:61-65 | The nested index loop completes exactly when the body completes on every pair `i < j`. |
| `Completions.In` | json_test.js:42-46 | `'key' in v` is true exactly when `v` is an object with that key. It is false on an array, and throws a `TypeError` exactly when `v` is neither an object nor an array. |
| `Completions.Find` | json_test.js:138 | `find` finds nothing exactly when the predicate is false on every element. A found element is the first one on which it holds. A throw comes from the first element on which the predicate throws. |
| `Checks.EachRecord` | json_test.js:40 | `table.forEach(body)` completes exactly when the table is an array and the body completes on every record. A non-array table throws a `TypeError`. Any other failure is the body's outcome on some record. |
| `Checks.FindIn` | json_test.js:138 | `table.find(pred)` finds nothing exactly when the table is an array and the predicate is false on every record. A hit comes from a record the predicate holds of. A throw is a `TypeError` for a non-array table, or else an error the predicate raised on some record. |
| `Checks.AllArrays` | json_test.js:32-36 | Check 1 passes exactly when all three tables are arrays. |
| `Checks.RecordHasFields` | json_test.js:41-46 | `assertObject` followed by the `in` assertions completes exactly when the record is an object holding every listed key. |
| `Checks.EnemiesHaveAllFields` | json_test.js:39-48 | Check 2 passes exactly when the enemies table is an array and every record is an object holding all five enemy keys. |
| `Checks.EnemyData` | json_test.js:51-57 | One enemy's field data is right exactly when the name is a non-empty string and the four flags are booleans. A `null` record throws a `TypeError`. |
| `Checks.EnemiesHaveFieldData` | json_test.js:50-58 | Check 3 passes exactly when the table is an array of records shaped as above. |
| `Checks.DistinctNames` | json_test.js:63 | One comparison completes exactly when neither enemy is `null` and their `name` reads are not strictly equal. Two enemies that both lack a name clash, because `undefined === undefined`. A `null` enemy throws a `TypeError`. |
| `Checks.NoDuplicateEnemyNames` | json_test.js:60-66 | Check 4 passes exactly when the table is an array and, for every pair of positions `i < j`, neither record is `null` and their `name` reads are not strictly equal. A single `null` record passes, because the inner loop never runs. |
| `Checks.LevelsHaveAllFields` | json_test.js:69-79 | Check 5 passes exactly when the levels table is an array and every record is an object holding all six level keys. |
| `Checks.LevelData` | json_test.js:82-89 | One level's field data is right exactly when zone and stage are non-empty strings and the four counts are non-negative numbers. A `null` record throws a `TypeError`. |
| `Checks.LevelsHaveFieldData` | json_test.js:81-90 | Check 6 passes exactly when the levels table is an array and every level is shaped as above. |
| `Checks.DistinctStages` | json_test.js:95-98 | The inner step throws a `TypeError` when either level is `null`. Otherwise it skips a level of another zone, and completes exactly when the zone reads and the stage reads are not both strictly equal. Two levels that both lack zone and stage clash, because `undefined === undefined`. |
| `Checks.NoDuplicateStagesInZone` | json_test.js:92-101 | Check 7 passes exactly when the table is an array and, for every pair of positions `i < j`, neither level is `null` and their zone and stage reads are not both strictly equal. A single `null` level passes, because the inner loop never runs. |
| `Checks.GatherZones` | json_test.js:104-110 | The loop that builds `foundZones` completes exactly when no level is `null`. Otherwise it throws a `TypeError`. |
| `Checks.GatherZonesCovers` | json_test.js:106-110 | After the loop, every level's zone is in `foundZones`. |
| `Checks.GatherZonesFrom` | json_test.js:106-110 | After the loop, everything in `foundZones` was already there or is some level's zone. |
| `Checks.GatherZonesNoDuplicates` | json_test.js:107-108 | `foundZones` never holds two strictly equal entries. |
| `Checks.ZoneCount` | json_test.js:103-113 | Check 8 passes exactly when the table is an array, no level is `null`, and the loop leaves `foundZones` with 6 + 1 entries. A non-array table or a `null` level throws a `TypeError`. Its partners are the `GatherZones` lemmas and `ZoneCountIff`. |
| `Checks.ZoneCountIff` | json_test.js:103-113 | When the levels table is an array with no `null` level and no zone that is an object or array, check 8 passes exactly when the levels name exactly 6 + 1 distinct zones. |
| `Checks.EnemyLevelsHaveAllFields` | json_test.js:116-124 | Check 9 passes exactly when the enemy_level table is an array and every row is an object holding all four appearance keys. |
| `Checks.EnemyLevelData` | json_test.js:127-132 | One row's data is right exactly when the enemy name, stage and zone are non-empty strings and the amount is a non-negative number. A `null` row throws a `TypeError`. |
| `Checks.EnemyLevelsHaveFieldData` | json_test.js:126-133 | Check 10 passes exactly when the enemy_level table is an array and every row is shaped as above. |
| `Checks.EnemyMatches` | json_test.js:138 | The enemy predicate holds exactly when the enemy's `name` is strictly equal to the row's `enemy_name`. It throws a `TypeError` exactly when either record is `null`. |
| `Checks.LevelMatches` | json_test.js:143 | The level predicate holds exactly when both zone and stage are strictly equal. It throws a `TypeError` exactly when either record is `null`. |
| `Checks.RowHasEnemy` | json_test.js:137-140 | The first assertion for a row completes exactly when the row is not `null` and `find` locates an enemy with a strictly equal name. It throws an assertion error exactly when nothing was found and the row's `enemy_name` converts to a string. That error carries the name. Every other failure is a `TypeError`. |
| `Checks.UnprintableNameThrows` | json_test.js:137-140 | A row whose `enemy_name` is an object with its own "toString" key fails with a `TypeError` from the message template, whatever the tables hold. |
| `Checks.RowHasLevel` | json_test.js:142-145 | The second assertion completes exactly when `find` locates a level with both zone and stage equal. It throws an assertion error exactly when nothing was found and the row's zone and stage both convert to strings. That error carries the zone and stage. Every other failure is a `TypeError`. |
| `Checks.RowResolves` | json_test.js:136-146 | The callback for one row completes exactly when both the enemy assertion and the level assertion complete. |
| `Checks.EnemyLevelsResolve` | json_test.js:135-147 | Check 11 passes exactly when the table is an array and every row passes both lookups. |
| `Checks.RowNames` | json_test.js:152 | The row predicate holds exactly when the row's `enemy_name` is strictly equal to the enemy's `name`. It throws a `TypeError` exactly when either record is `null`. |
| `Checks.EnemyAppears` | json_test.js:150-155 | The assertion for one enemy completes exactly when the enemy is not `null` and some row names it. It throws an assertion error exactly when no row does and the enemy's `name` converts to a string. That error carries the name. Every other failure is a `TypeError`. |
| `Checks.EnemiesAppear` | json_test.js:149-156 | Check 12 passes exactly when the enemies table is an array and every enemy passes that lookup. |
| `Tables.ShapeChecksPass` | json_test.js:32-48 | Records written out from typed tables always pass the array and has-all-fields checks (1, 2, 5 and 9). |
| `Tables.EnemyFieldDataIff` | json_test.js:50-58 | On typed tables, check 3 passes exactly when every enemy name is non-empty. |
| `Tables.LevelFieldDataIff` | json_test.js:81-90 | On typed tables, check 6 passes exactly when every zone and stage is non-empty and every count is non-negative. |
| `Tables.AppearanceFieldDataIff` | json_test.js:126-133 | On typed tables, check 10 passes exactly when every row has non-empty names and a non-negative amount. |
| `Tables.NoDuplicateNamesIff` | json_test.js:60-66 | On typed tables, check 4 passes exactly when all enemy names differ. |
| `Tables.NoDuplicateStagesIff` | json_test.js:92-101 | On typed tables, check 7 passes exactly when no two levels share both zone and stage. |
| `Tables.ZoneCountIffTables` | json_test.js:103-113 | On typed tables, check 8 passes exactly when the set of zones has seven members. |
| `Tables.EnemyLookup` | json_test.js:138 | For a written-out row, the enemy lookup never throws. It finds an enemy exactly when the table has one of that name. |
| `Tables.LevelLookup` | json_test.js:143 | For a written-out row, the level lookup never throws. It finds a level exactly when the table has one with that zone and stage. |
| `Tables.ReferencesIff` | json_test.js:135-147 | On typed tables, check 11 passes exactly when every appearance names an existing enemy and an existing level. |
| `Tables.RowFailureNamesRow` | json_test.js:137-145 | On typed tables, a row that does not resolve fails with the message naming its missing enemy, or else its missing zone and stage. |
| `Tables.ReferencesFailureNamesRow` | json_test.js:137-145 | When check 11 fails on typed tables, its error names an offending row. It gives the missing enemy name if that lookup fails, and otherwise the missing zone and stage. |
| `Tables.AppearanceLookup` | json_test.js:152 | For a written-out enemy, the row lookup never throws. It finds a row exactly when one names the enemy. |
| `Tables.CoverageIff` | json_test.js:149-156 | On typed tables, check 12 passes exactly when every enemy appears in some row. |
| `Tables.EnemyFailureNamesEnemy` | json_test.js:150-155 | On typed tables, an enemy that no row names fails with the message naming it. |
| `Tables.CoverageFailureNamesEnemy` | json_test.js:150-155 | When check 12 fails on typed tables, its error names an enemy that no row mentions. |
| `Catalog.RunReportsEveryCheck` | json_test.js:32-156 | Running the file gives twelve reports. Each one carries its test's name and passes exactly when that test's check completes. |
| `Catalog.EveryCheckListed` | json_test.js:32-156 | Each of the twelve checks appears among the file's `test` calls. |
| `Catalog.AllPassIffChecksComplete` | json_test.js:32-156 | The file reports a pass on every test exactly when every one of the twelve checks completes on the data. |
| `Catalog.CheckMeaning` | json_test.js:32-156 | On typed tables, each of the twelve checks passes exactly when the tables have the property it stands for. |
| `Catalog.RunPassesIffValid` | json_test.js:32-156 | On typed tables, the file reports a pass on every test exactly when the tables satisfy all the invariants together. |

## Left out

- Loading the three JSON files (json_test.js:1-3): the tables are
  parameters of every check.
- Console output, and the tick and cross glyphs (json_test.js:8-11): a report
  keeps the test name and outcome, and the thrown error is kept structured.
  The "assert failed" text and the interpolated message are modelled as a
  `Message` value holding the interpolated fields. They are not rendered to
  a string.
- Numbers are modelled as exact reals, not doubles. The checks only compare
  numbers with `>= 0` and `===`. What is not represented:
  - Literals beyond the double range, which the import turns into
    `Infinity`. For example `1e400` and `2e400` are `===` in JavaScript but
    differ as reals.
  - Decimal literals that round to the same double.
- Strings are sequences of Unicode scalar values, not UTF-16 code units. A
  string holding a lone surrogate such as `"\ud800"` cannot be represented.
- Object identity is not modelled beyond what the checks need. Two objects
  or arrays are never `===`, because the checks only compare records at
  different positions.
- The exit status: the file sets none. A failing test only prints.
- Each check stops at its first failed assertion (json_test.js:16), and so
  does the model. A check never lists more than one violation.
- Checks.ZoneCountIff: states the set-cardinality reading only for a levels
  table that is an array with no `null` level and no zone that is an object
  or array. The check itself, `Checks.ZoneCount`, is modelled for every
  input, and it throws a `TypeError` on a non-array table or a `null` level.
  For object-valued zones, `includes` compares identity, so each such zone
  counts separately.

=== FILE: assertions.dfy ===
/** The four assertion helpers at the top of the test file. Each either lets
    the check go on or throws an `Error` carrying the given message. */
module Assertions {
  import opened JsValues
  import opened Completions

  /** `assert(pred, msg)`: throws when the predicate is false. */
  function Assert(pred: bool, msg: Message): (c: Completion)
    ensures c == Normal <==> pred
    ensures c != Normal ==> c.error == AssertionError(msg)
  {
    if !pred then Throw(AssertionError(msg)) else Normal
  }

  /** `assertObject(obj, msg)`: `typeof obj === 'object' && obj !== null`,
      which JSON objects and arrays pass and everything else fails. */
  function AssertObject(obj: Value, msg: Message): (c: Completion)
    ensures c == Normal <==> obj.Obj? || obj.Arr?
    ensures c != Normal ==> c.error == AssertionError(msg)
  {
    Assert(TypeOf(Present(obj)) == "object" && obj != Null, msg)
  }

  /** `assertAmount(amount, msg)`: a number that is not negative. */
  function AssertAmount(amount: Slot, msg: Message): (c: Completion)
    ensures c == Normal <==> amount.Present? && amount.value.Num? && amount.value.n >= 0.0
    ensures c != Normal ==> c.error == AssertionError(msg)
  {
    Assert(TypeOf(amount) == "number" && amount.value.n >= 0.0, msg)
  }

  /** `assertName(name, msg)`: a string other than the empty string. */
  function AssertName(name: Slot, msg: Message): (c: Completion)
    ensures c == Normal <==> name.Present? && name.value.Str? && name.value.s != ""
    ensures c != Normal ==> c.error == AssertionError(msg)
  {
    Assert(TypeOf(name) == "string" && name != Present(Str("")), msg)
  }

  /** `typeof v === 'boolean'`. */
  function IsBoolean(v: Slot): (r: bool)
    ensures r <==> v.Present? && v.value.Bool?
  {
    TypeOf(v) == "boolean"
  }

  /** `assert(key in v)` for a whole list of keys, in order; applying `in`
      to a non-object throws a `TypeError` instead. */
  function AssertHasAll(fields: seq<Field>, v: Value): (c: Completion)
    ensures c == Normal <==>
      (|fields| == 0 || v.Obj? || v.Arr?) &&
      forall k :: 0 <= k < |fields| ==> In(fields[k], v) == Holds(true)
  {
    ForEach(fields, f => AssertVerdict(In(f, v), NoMessage))
  }

  /** `assert(expr, msg)` where evaluating `expr` may itself throw. */
  function AssertVerdict(v: Verdict, msg: Message): (c: Completion)
    ensures c == Normal <==> v == Holds(true)
    ensures v.Raises? ==> c == Throw(v.error)
    ensures v == Holds(false) ==> c == Throw(AssertionError(msg))
  {
    match v
    case Raises(e) => Throw(e)
    case Holds(b) => Assert(b, msg)
  }
}

=== FILE: catalog.dfy ===
/** The test file as a whole: its twelve `test` calls in declaration order,
    and what a full run says about the data. */
module Catalog {
  import opened Completions
  import opened Runner
  import opened Checks
  import opened Tables

  /** The closures passed to `test`, one per check. */
  datatype CheckId =
    | AllJsonIsArray
    | EnemiesFields | EnemiesFieldData | EnemyNamesUnique
    | LevelsFields | LevelsFieldData | StagesUniqueInZone | TotalZones
    | EnemyLevelsFields | EnemyLevelsFieldData | EnemyLevelsReferences
    | EnemiesInEnemyLevel

  /** Calling the closure on the data. */
  function Evaluate(id: CheckId, d: Dataset): Completion {
    match id
    case AllJsonIsArray => AllArrays(d)
    case EnemiesFields => EnemiesHaveAllFields(d)
    case EnemiesFieldData => EnemiesHaveFieldData(d)
    case EnemyNamesUnique => NoDuplicateEnemyNames(d)
    case LevelsFields => LevelsHaveAllFields(d)
    case LevelsFieldData => LevelsHaveFieldData(d)
    case StagesUniqueInZone => NoDuplicateStagesInZone(d)
    case TotalZones => ZoneCount(d)
    case EnemyLevelsFields => EnemyLevelsHaveAllFields(d)
    case EnemyLevelsFieldData => EnemyLevelsHaveFieldData(d)
    case EnemyLevelsReferences => EnemyLevelsResolve(d)
    case EnemiesInEnemyLevel => EnemiesAppear(d)
  }

  /** The `test` call at each position of the file. */
  function TestAt(i: nat): Test<CheckId>
    requires i < 12
  {
    match i
    case 0 => Test("all json data is an array", AllJsonIsArray)
    case 1 => Test("all enemies have all fields", EnemiesFields)
    case 2 => Test("all enemies have correct field data", EnemiesFieldData)
    case 3 => Test("no duplicate enemy names", EnemyNamesUnique)
    case 4 => Test("all levels have all fields", LevelsFields)
    case 5 => Test("all levels have correct field data", LevelsFieldData)
    case 6 => Test("no duplicate level names in zones", StagesUniqueInZone)
    case 7 => Test("correct amount of total zones", TotalZones)
    case 8 => Test("all enemy_levels have all fields", EnemyLevelsFields)
    case 9 => Test("all enemy_levels have correct field data", EnemyLevelsFieldData)
    case 10 => Test("all enemy_level entries have field data of other tables", EnemyLevelsReferences)
    case _ => Test("all enemies exist in enemy_level data", EnemiesInEnemyLevel)
  }

  /** The twelve `test` calls, in declaration order. */
  const Tests: seq<Test<CheckId>> := seq(12, i requires 0 <= i < 12 => TestAt(i))

  /** Running the whole file. */
  function RunFile(d: Dataset): seq<Report> {
    Run(Evaluate, d, Tests)
  }

  /** Running the file reports on every check, in declaration order, and a
      check's report depends on nothing but that check. */
  lemma RunReportsEveryCheck(d: Dataset)
    ensures |RunFile(d)| == |Tests| == 12
    ensures forall i :: 0 <= i < 12 ==> RunFile(d)[i].name == Tests[i].name
    ensures forall i :: 0 <= i < 12 ==>
      (RunFile(d)[i].outcome == Pass <==> Evaluate(Tests[i].check, d) == Normal)
  {
  }

  /** Every check of the file is in the list. */
  lemma EveryCheckListed(id: CheckId)
    ensures Listed(Tests, id)
  {
    var i: nat :=
      match id
      case AllJsonIsArray => 0
      case EnemiesFields => 1
      case EnemiesFieldData => 2
      case EnemyNamesUnique => 3
      case LevelsFields => 4
      case LevelsFieldData => 5
      case StagesUniqueInZone => 6
      case TotalZones => 7
      case EnemyLevelsFields => 8
      case EnemyLevelsFieldData => 9
      case EnemyLevelsReferences => 10
      case EnemiesInEnemyLevel => 11;
    assert Tests[i].check == id;
  }

  /** A run passes throughout exactly when every check body completes. */
  lemma AllPassIffChecksComplete(d: Dataset)
    ensures AllPass(RunFile(d)) <==> forall id :: Evaluate(id, d) == Normal
  {
    forall id
      ensures Listed(Tests, id)
    {
      EveryCheckListed(id);
    }
    AllPassIffEveryCheck(Evaluate, d, Tests);
  }

  /** What each check asks of typed tables. The shape checks ask nothing:
      written-out records always have the shape. */
  predicate Meaning(id: CheckId, t: Tables) {
    match id
    case AllJsonIsArray => true
    case EnemiesFields => true
    case EnemiesFieldData => forall e :: e in t.enemies ==> EnemyValid(e)
    case EnemyNamesUnique => UniqueNames(t.enemies)
    case LevelsFields => true
    case LevelsFieldData => forall l :: l in t.levels ==> LevelValid(l)
    case StagesUniqueInZone => UniqueStages(t.levels)
    case TotalZones => |Zones(t.levels)| == ExpectedZones
    case EnemyLevelsFields => true
    case EnemyLevelsFieldData => forall a :: a in t.appearances ==> AppearanceValid(a)
    case EnemyLevelsReferences => forall a :: a in t.appearances ==> HasEnemy(t, a) && HasLevel(t, a)
    case EnemiesInEnemyLevel => forall e :: e in t.enemies ==> Appears(t, e)
  }

  /** On written-out tables each check passes exactly when the tables have
      the property it stands for. */
  lemma CheckMeaning(id: CheckId, t: Tables)
    ensures Evaluate(id, Encode(t)) == Normal <==> Meaning(id, t)
  {
    match id
    case AllJsonIsArray => ShapeChecksPass(t);
    case EnemiesFields => ShapeChecksPass(t);
    case EnemiesFieldData => EnemyFieldDataIff(t);
    case EnemyNamesUnique => NoDuplicateNamesIff(t);
    case LevelsFields => ShapeChecksPass(t);
    case LevelsFieldData => LevelFieldDataIff(t);
    case StagesUniqueInZone => NoDuplicateStagesIff(t);
    case TotalZones => ZoneCountIffTables(t);
    case EnemyLevelsFields => ShapeChecksPass(t);
    case EnemyLevelsFieldData => AppearanceFieldDataIff(t);
    case EnemyLevelsReferences => ReferencesIff(t);
    case EnemiesInEnemyLevel => CoverageIff(t);
  }

  /** The invariants the file enforces, stated on typed tables. */
  predicate Valid(t: Tables) {
    && (forall e :: e in t.enemies ==> EnemyValid(e))
    && UniqueNames(t.enemies)
    && (forall l :: l in t.levels ==> LevelValid(l))
    && UniqueStages(t.levels)
    && |Zones(t.levels)| == ExpectedZones
    && (forall a :: a in t.appearances ==> AppearanceValid(a))
    && (forall a :: a in t.appearances ==> HasEnemy(t, a) && HasLevel(t, a))
    && (forall e :: e in t.enemies ==> Appears(t, e))
  }

  lemma ValidIffAllMeanings(t: Tables)
    ensures Valid(t) <==> forall id :: Meaning(id, t)
  {
    if Valid(t) {
      forall id
        ensures Meaning(id, t)
      {
      }
    }
    if forall id :: Meaning(id, t) {
      assert Meaning(EnemiesFieldData, t) && Meaning(EnemyNamesUnique, t);
      assert Meaning(LevelsFieldData, t) && Meaning(StagesUniqueInZone, t) && Meaning(TotalZones, t);
      assert Meaning(EnemyLevelsFieldData, t) && Meaning(EnemyLevelsReferences, t);
      assert Meaning(EnemiesInEnemyLevel, t);
    }
  }

  /** For data written out from typed tables, the file reports a tick on
      every check exactly when the tables meet all the invariants. */
  lemma RunPassesIffValid(t: Tables)
    ensures AllPass(RunFile(Encode(t))) <==> Valid(t)
  {
    AllPassIffChecksComplete(Encode(t));
    forall id
      ensures Evaluate(id, Encode(t)) == Normal <==> Meaning(id, t)
    {
      CheckMeaning(id, t);
    }
    ValidIffAllMeanings(t);
  }
}

=== FILE: checks.dfy ===
/** The twelve checks of the test file, in declaration order, over the three
    parsed tables. Each check body is modelled as the JavaScript executes it:
    loops run in order, a property read of `null` or a method call on a
    non-array throws a `TypeError`, and the first throw ends the body. */
module Checks {
  import opened JsValues
  import opened Completions
  import opened Assertions

  /** The three imported JSON documents. */
  datatype Dataset = Dataset(enemies: Value, levels: Value, enemyLevel: Value)

  const EnemyFields: seq<Field> := [Name, Stompable, Spinable, Flammable, Starrable]
  const LevelFields: seq<Field> := [Zone, Stage, Stars, Coins, QuestionBlocks, MoneyBags]
  const EnemyLevelFields: seq<Field> := [EnemyName, LevelZone, LevelStage, Amount]

  /** The number of zones the level table must have: six worlds and the
      overworld. */
  const ExpectedZones: nat := 6 + 1

  // ---------------------------------------------------------------------
  // What a record must look like, stated on the JSON value directly.

  /** An object that has every one of the given keys. */
  predicate HasKeys(v: Value, fields: seq<Field>) {
    v.Obj? && forall k :: 0 <= k < |fields| ==> Key(fields[k]) in v.fields
  }

  /** The object has field `f` holding a non-empty string. */
  predicate NameAt(v: Value, f: Field) {
    v.Obj? && Key(f) in v.fields && v.fields[Key(f)].Str? && v.fields[Key(f)].s != ""
  }

  /** The object has field `f` holding a boolean. */
  predicate BoolAt(v: Value, f: Field) {
    v.Obj? && Key(f) in v.fields && v.fields[Key(f)].Bool?
  }

  /** The object has field `f` holding a number that is not negative. */
  predicate AmountAt(v: Value, f: Field) {
    v.Obj? && Key(f) in v.fields && v.fields[Key(f)].Num? && v.fields[Key(f)].n >= 0.0
  }

  predicate EnemyShaped(v: Value) {
    NameAt(v, Name) && BoolAt(v, Stompable) && BoolAt(v, Spinable) &&
    BoolAt(v, Flammable) && BoolAt(v, Starrable)
  }

  predicate LevelShaped(v: Value) {
    NameAt(v, Zone) && NameAt(v, Stage) && AmountAt(v, Stars) && AmountAt(v, Coins) &&
    AmountAt(v, QuestionBlocks) && AmountAt(v, MoneyBags)
  }

  predicate EnemyLevelShaped(v: Value) {
    NameAt(v, EnemyName) && NameAt(v, LevelStage) && NameAt(v, LevelZone) && AmountAt(v, Amount)
  }

  // ---------------------------------------------------------------------
  // Loops over a table.

  /** `table.forEach(body)`: a table that is not an array has no `forEach`
      method, so calling it throws. */
  function EachRecord(table: Value, body: Value -> Completion): (c: Completion)
    ensures c == Normal <==>
      table.Arr? && forall k :: 0 <= k < |table.items| ==> body(table.items[k]) == Normal
    ensures c != Normal ==>
      (!table.Arr? && c == Throw(TypeError)) ||
      (table.Arr? && exists k :: 0 <= k < |table.items| && c == body(table.items[k]))
  {
    if table.Arr? then ForEach(table.items, body) else Throw(TypeError)
  }

  /** `table.find(pred)`, with the same `TypeError` on a non-array. */
  function FindIn(table: Value, pred: Value -> Verdict): (r: Search)
    ensures r.NotFound? <==>
      table.Arr? && forall k :: 0 <= k < |table.items| ==> pred(table.items[k]) == Holds(false)
    ensures r.Found? ==>
      table.Arr? && exists k :: 0 <= k < |table.items| && pred(table.items[k]) == Holds(true)
    ensures r.Raised? ==>
      (!table.Arr? && r.error == TypeError) ||
      (table.Arr? && exists k :: 0 <= k < |table.items| && pred(table.items[k]) == Raises(r.error))
  {
    if table.Arr? then Find(table.items, pred) else Raised(TypeError)
  }

  // ---------------------------------------------------------------------
  // Check 1: all json data is an array.

  function AllArrays(d: Dataset): (c: Completion)
    ensures c == Normal <==> d.enemies.Arr? && d.levels.Arr? && d.enemyLevel.Arr?
  {
    Then(Assert(IsArray(d.enemies), NoMessage),
    Then(Assert(IsArray(d.levels), NoMessage),
         Assert(IsArray(d.enemyLevel), NoMessage)))
  }

  // ---------------------------------------------------------------------
  // Checks 2, 5 and 9: every record has all fields.

  /** `assertObject(record)` followed by `assert(key in record)` for each key. */
  function RecordHasFields(fields: seq<Field>, v: Value): (c: Completion)
    requires |fields| > 0
    ensures c == Normal <==> HasKeys(v, fields)
  {
    var c := Then(AssertObject(v, NoMessage), AssertHasAll(fields, v));
    assert c == Normal ==> In(fields[0], v) == Holds(true);
    c
  }

  function EnemiesHaveAllFields(d: Dataset): (c: Completion)
    ensures c == Normal <==>
      d.enemies.Arr? && forall k :: 0 <= k < |d.enemies.items| ==> HasKeys(d.enemies.items[k], EnemyFields)
  {
    EachRecord(d.enemies, v => RecordHasFields(EnemyFields, v))
  }

  function LevelsHaveAllFields(d: Dataset): (c: Completion)
    ensures c == Normal <==>
      d.levels.Arr? && forall k :: 0 <= k < |d.levels.items| ==> HasKeys(d.levels.items[k], LevelFields)
  {
    EachRecord(d.levels, v => RecordHasFields(LevelFields, v))
  }

  function EnemyLevelsHaveAllFields(d: Dataset): (c: Completion)
    ensures c == Normal <==>
      d.enemyLevel.Arr? &&
      forall k :: 0 <= k < |d.enemyLevel.items| ==> HasKeys(d.enemyLevel.items[k], EnemyLevelFields)
  {
    EachRecord(d.enemyLevel, v => RecordHasFields(EnemyLevelFields, v))
  }

  // ---------------------------------------------------------------------
  // Checks 3, 6 and 10: every record has correct field data. These bodies
  // read fields without `assertObject` first, so a `null` record throws a
  // `TypeError`, and any other non-object reads `undefined` and fails.

  /** The assertions on one enemy: a name, and four booleans. */
  function EnemyData(v: Value): (c: Completion)
    ensures c == Normal <==> EnemyShaped(v)
    ensures v.Null? ==> c == Throw(TypeError)
  {
    if v.Null? then Throw(TypeError)
    else
      Then(AssertName(Prop(v, Name), NoMessage),
      Then(Assert(IsBoolean(Prop(v, Stompable)), NoMessage),
      Then(Assert(IsBoolean(Prop(v, Spinable)), NoMessage),
      Then(Assert(IsBoolean(Prop(v, Flammable)), NoMessage),
           Assert(IsBoolean(Prop(v, Starrable)), NoMessage)))))
  }

  /** The assertions on one level: zone and stage names, four amounts. */
  function LevelData(v: Value): (c: Completion)
    ensures c == Normal <==> LevelShaped(v)
    ensures v.Null? ==> c == Throw(TypeError)
  {
    if v.Null? then Throw(TypeError)
    else
      Then(AssertName(Prop(v, Zone), NoMessage),
      Then(AssertName(Prop(v, Stage), NoMessage),
      Then(AssertAmount(Prop(v, Stars), NoMessage),
      Then(AssertAmount(Prop(v, Coins), NoMessage),
      Then(AssertAmount(Prop(v, QuestionBlocks), NoMessage),
           AssertAmount(Prop(v, MoneyBags), NoMessage))))))
  }

  /** The assertions on one appearance row: three names, one amount. */
  function EnemyLevelData(v: Value): (c: Completion)
    ensures c == Normal <==> EnemyLevelShaped(v)
    ensures v.Null? ==> c == Throw(TypeError)
  {
    if v.Null? then Throw(TypeError)
    else
      Then(AssertName(Prop(v, EnemyName), NoMessage),
      Then(AssertName(Prop(v, LevelStage), NoMessage),
      Then(AssertName(Prop(v, LevelZone), NoMessage),
           AssertAmount(Prop(v, Amount), NoMessage))))
  }

  function EnemiesHaveFieldData(d: Dataset): (c: Completion)
    ensures c == Normal <==>
      d.enemies.Arr? && forall k :: 0 <= k < |d.enemies.items| ==> EnemyShaped(d.enemies.items[k])
  {
    EachRecord(d.enemies, EnemyData)
  }

  function LevelsHaveFieldData(d: Dataset): (c: Completion)
    ensures c == Normal <==>
      d.levels.Arr? && forall k :: 0 <= k < |d.levels.items| ==> LevelShaped(d.levels.items[k])
  {
    EachRecord(d.levels, LevelData)
  }

  function EnemyLevelsHaveFieldData(d: Dataset): (c: Completion)
    ensures c == Normal <==>
      d.enemyLevel.Arr? &&
      forall k :: 0 <= k < |d.enemyLevel.items| ==> EnemyLevelShaped(d.enemyLevel.items[k])
  {
    EachRecord(d.enemyLevel, EnemyLevelData)
  }

  // ---------------------------------------------------------------------
  // Check 4: no duplicate enemy names.

  /** Two enemies clash when their `name` reads are strictly equal; two
      records that both lack a name clash too, since `undefined ===
      undefined`. */
  predicate NamesClash(a: Value, b: Value)
    requires !a.Null? && !b.Null?
  {
    StrictEquals(Prop(a, Name), Prop(b, Name))
  }

  /** `assert(enemy.name !== enemies[index].name)`. */
  function DistinctNames(a: Value, b: Value): (c: Completion)
    ensures c == Normal <==> !a.Null? && !b.Null? && !NamesClash(a, b)
    ensures a.Null? || b.Null? ==> c == Throw(TypeError)
  {
    if a.Null? || b.Null? then Throw(TypeError)
    else Assert(!StrictEquals(Prop(a, Name), Prop(b, Name)), NoMessage)
  }

  function NoDuplicateEnemyNames(d: Dataset): (c: Completion)
    ensures c == Normal <==>
      d.enemies.Arr? &&
      forall i, j :: 0 <= i < j < |d.enemies.items| ==>
        var a, b := d.enemies.items[i], d.enemies.items[j];
        !a.Null? && !b.Null? && !NamesClash(a, b)
  {
    if d.enemies.Arr? then Pairwise(d.enemies.items, DistinctNames) else Throw(TypeError)
  }

  // ---------------------------------------------------------------------
  // Check 7: no duplicate level names in zones.

  /** Two levels clash when both their zones and their stages are strictly
      equal. */
  predicate StagesClash(a: Value, b: Value)
    requires !a.Null? && !b.Null?
  {
    StrictEquals(Prop(b, Zone), Prop(a, Zone)) && StrictEquals(Prop(a, Stage), Prop(b, Stage))
  }

  /** The inner loop body: skip a level of another zone, otherwise
      `assert(level.stage !== testLevel.stage)`. */
  function DistinctStages(level: Value, testLevel: Value): (c: Completion)
    ensures c == Normal <==> !level.Null? && !testLevel.Null? && !StagesClash(level, testLevel)
    ensures level.Null? || testLevel.Null? ==> c == Throw(TypeError)
  {
    if level.Null? || testLevel.Null? then Throw(TypeError)
    else if !StrictEquals(Prop(testLevel, Zone), Prop(level, Zone)) then Normal
    else Assert(!StrictEquals(Prop(level, Stage), Prop(testLevel, Stage)), NoMessage)
  }

  function NoDuplicateStagesInZone(d: Dataset): (c: Completion)
    ensures c == Normal <==>
      d.levels.Arr? &&
      forall i, j :: 0 <= i < j < |d.levels.items| ==>
        var a, b := d.levels.items[i], d.levels.items[j];
        !a.Null? && !b.Null? && !StagesClash(a, b)
  {
    if d.levels.Arr? then Pairwise(d.levels.items, DistinctStages) else Throw(TypeError)
  }

  // ---------------------------------------------------------------------
  // Check 8: correct amount of total zones.

  /** No two entries are strictly equal. */
  predicate NoStrictDuplicates(found: seq<Slot>) {
    forall i, j :: 0 <= i < j < |found| ==> !StrictEquals(found[i], found[j])
  }

  /** The outcome of the `forEach` that builds `foundZones`. */
  datatype Gathered = Gathered(zones: seq<Slot>) | Interrupted(error: Error)

  /** The loop that pushes each level's zone onto `found` unless `found`
      already includes it. A `null` level throws when its zone is read. */
  function GatherZones(levels: seq<Value>, found: seq<Slot>): (r: Gathered)
    ensures r.Gathered? <==> forall k :: 0 <= k < |levels| ==> !levels[k].Null?
    ensures r.Interrupted? ==> r.error == TypeError
    decreases |levels|
  {
    if |levels| == 0 then Gathered(found)
    else if levels[0].Null? then Interrupted(TypeError)
    else
      var r := GatherZones(levels[1..], PushZone(found, Prop(levels[0], Zone)));
      assert forall k :: 1 <= k < |levels| ==> levels[k] == levels[1..][k - 1];
      r
  }

  /** One step of the loop: `found` after the level's zone was considered. */
  function PushZone(found: seq<Slot>, zone: Slot): seq<Slot> {
    if Includes(found, zone) then found else found + [zone]
  }

  /** After the step, the zone is in `found` and what was there stays. */
  lemma PushZoneHolds(found: seq<Slot>, zone: Slot)
    ensures zone in PushZone(found, zone)
    ensures |found| <= |PushZone(found, zone)| && PushZone(found, zone)[..|found|] == found
    ensures forall z :: z in PushZone(found, zone) ==> z in found || z == zone
  {
    if Includes(found, zone) {
      var k :| 0 <= k < |found| && StrictEquals(found[k], zone);
      StrictEqualsIsEquality(found[k], zone);
    }
  }

  /** The step never adds a strict duplicate. */
  lemma PushZoneNoDuplicates(found: seq<Slot>, zone: Slot)
    requires NoStrictDuplicates(found)
    ensures NoStrictDuplicates(PushZone(found, zone))
  {
    var found' := PushZone(found, zone);
    forall i, j | 0 <= i < j < |found'|
      ensures !StrictEquals(found'[i], found'[j])
    {
      if j == |found| {
        assert found'[j] == zone;
      }
    }
  }

  /** What was in `found` before the loop is still its prefix after it. */
  lemma {:induction false} GatherZonesKeeps(levels: seq<Value>, found: seq<Slot>)
    requires GatherZones(levels, found).Gathered?
    ensures var zs := GatherZones(levels, found).zones;
      |found| <= |zs| && zs[..|found|] == found
    decreases |levels|
  {
    if |levels| > 0 {
      var zone := Prop(levels[0], Zone);
      PushZoneHolds(found, zone);
      GatherZonesKeeps(levels[1..], PushZone(found, zone));
      var zs := GatherZones(levels, found).zones;
      assert zs[..|found|] == zs[..|PushZone(found, zone)|][..|found|];
    }
  }

  /** Every level's zone ends up in `found`. */
  lemma {:induction false} GatherZonesCovers(levels: seq<Value>, found: seq<Slot>)
    requires GatherZones(levels, found).Gathered?
    ensures forall k :: 0 <= k < |levels| ==> Prop(levels[k], Zone) in GatherZones(levels, found).zones
    decreases |levels|
  {
    if |levels| > 0 {
      var zone := Prop(levels[0], Zone);
      var found' := PushZone(found, zone);
      PushZoneHolds(found, zone);
      assert forall k :: 1 <= k < |levels| ==> levels[k] == levels[1..][k - 1];
      GatherZonesCovers(levels[1..], found');
      GatherZonesKeeps(levels[1..], found');
      var zs := GatherZones(levels, found).zones;
      assert zone in zs by {
        assert zone == zs[..|found'|][IndexOf(found', zone)];
      }
    }
  }

  /** Everything in `found` after the loop was there before or is the zone
      of some level. */
  lemma {:induction false} GatherZonesFrom(levels: seq<Value>, found: seq<Slot>)
    requires GatherZones(levels, found).Gathered?
    ensures forall z :: z in GatherZones(levels, found).zones ==>
      z in found || exists k :: 0 <= k < |levels| && z == Prop(levels[k], Zone)
    decreases |levels|
  {
    if |levels| > 0 {
      var zone := Prop(levels[0], Zone);
      PushZoneHolds(found, zone);
      assert forall k :: 1 <= k < |levels| ==> levels[k] == levels[1..][k - 1];
      GatherZonesFrom(levels[1..], PushZone(found, zone));
    }
  }

  /** Starting without duplicates, `found` never holds a duplicate. */
  lemma {:induction false} GatherZonesNoDuplicates(levels: seq<Value>, found: seq<Slot>)
    requires NoStrictDuplicates(found)
    requires GatherZones(levels, found).Gathered?
    ensures NoStrictDuplicates(GatherZones(levels, found).zones)
    decreases |levels|
  {
    if |levels| > 0 {
      var zone := Prop(levels[0], Zone);
      PushZoneNoDuplicates(found, zone);
      GatherZonesNoDuplicates(levels[1..], PushZone(found, zone));
    }
  }

  /** The position of an element in a sequence holding it. */
  function IndexOf<T(==)>(s: seq<T>, x: T): (k: nat)
    requires x in s
    ensures k < |s| && s[k] == x
  {
    if s[0] == x then 0 else 1 + IndexOf(s[1..], x)
  }

  function ZoneCount(d: Dataset): (c: Completion)
    ensures c == Normal <==>
      d.levels.Arr? &&
      (forall k :: 0 <= k < |d.levels.items| ==> !d.levels.items[k].Null?) &&
      |GatherZones(d.levels.items, []).zones| == ExpectedZones
    ensures !d.levels.Arr? || (exists k :: 0 <= k < |d.levels.items| && d.levels.items[k].Null?) ==>
      c == Throw(TypeError)
  {
    if !d.levels.Arr? then Throw(TypeError)
    else
      match GatherZones(d.levels.items, [])
      case Interrupted(e) => Throw(e)
      case Gathered(found) => Assert(|found| == ExpectedZones, NoMessage)
  }

  /** The zones the levels name, as a set of values. */
  function ZoneSet(levels: seq<Value>): set<Slot>
    requires forall k :: 0 <= k < |levels| ==> !levels[k].Null?
  {
    set k | 0 <= k < |levels| :: Prop(levels[k], Zone)
  }

  /** When no zone is an object or an array, `foundZones` ends up holding
      each distinct zone exactly once, so the check passes exactly when the
      levels name seven distinct zones. */
  lemma ZoneCountIff(d: Dataset)
    requires d.levels.Arr?
    requires forall k :: 0 <= k < |d.levels.items| ==> !d.levels.items[k].Null?
    requires forall k :: 0 <= k < |d.levels.items| ==> Primitive(Prop(d.levels.items[k], Zone))
    ensures ZoneCount(d) == Normal <==> |ZoneSet(d.levels.items)| == ExpectedZones
  {
    var levels := d.levels.items;
    var zs := GatherZones(levels, []).zones;
    GatherZonesCovers(levels, []);
    GatherZonesFrom(levels, []);
    GatherZonesNoDuplicates(levels, []);
    assert (set z | z in zs) == ZoneSet(levels);
    forall i, j | 0 <= i < j < |zs|
      ensures zs[i] != zs[j]
    {
      assert zs[i] in zs && zs[i] !in [];
      var k :| 0 <= k < |levels| && zs[i] == Prop(levels[k], Zone);
      StrictEqualsIsEquality(zs[i], zs[j]);
    }
    DistinctCard(zs);
  }

  /** A sequence without repeated elements has as many distinct elements as
      it is long. */
  lemma {:induction false} DistinctCard<T>(s: seq<T>)
    requires forall i, j :: 0 <= i < j < |s| ==> s[i] != s[j]
    ensures |(set x | x in s)| == |s|
  {
    if |s| > 0 {
      DistinctCard(s[1..]);
      assert (set x | x in s) == {s[0]} + (set x | x in s[1..]);
      assert s[0] !in (set x | x in s[1..]);
    }
  }

  // ---------------------------------------------------------------------
  // Check 11: all enemy_level entries have field data of other tables.

  /** `enemy => enemy.name === data.enemy_name`. */
  function EnemyMatches(row: Value, enemy: Value): (r: Verdict)
    ensures r.Raises? <==> enemy.Null? || row.Null?
    ensures r.Raises? ==> r.error == TypeError
    ensures r == Holds(true) <==>
      !enemy.Null? && !row.Null? && StrictEquals(Prop(enemy, Name), Prop(row, EnemyName))
  {
    if enemy.Null? || row.Null? then Raises(TypeError)
    else Holds(StrictEquals(Prop(enemy, Name), Prop(row, EnemyName)))
  }

  /** `level => level.zone === data.level_zone && level.stage === data.level_stage`. */
  function LevelMatches(row: Value, level: Value): (r: Verdict)
    ensures r.Raises? <==> level.Null? || row.Null?
    ensures r.Raises? ==> r.error == TypeError
    ensures r == Holds(true) <==>
      !level.Null? && !row.Null? &&
      StrictEquals(Prop(level, Zone), Prop(row, LevelZone)) &&
      StrictEquals(Prop(level, Stage), Prop(row, LevelStage))
  {
    if level.Null? || row.Null? then Raises(TypeError)
    else if !StrictEquals(Prop(level, Zone), Prop(row, LevelZone)) then Holds(false)
    else Holds(StrictEquals(Prop(level, Stage), Prop(row, LevelStage)))
  }

  /** The first `assert` for one row. Its arguments are evaluated in order:
      the enemy lookup, then the message, whose template reads
      `data.enemy_name` and converts it to a string; then the assertion. */
  function RowHasEnemy(d: Dataset, row: Value): (c: Completion)
    ensures c == Normal <==> !row.Null? && FindIn(d.enemies, e => EnemyMatches(row, e)).Found?
    ensures c.Throw? && c.error.AssertionError? <==>
      !row.Null? && SlotRenders(Prop(row, EnemyName)) &&
      FindIn(d.enemies, e => EnemyMatches(row, e)).NotFound?
    ensures c.Throw? && c.error.AssertionError? ==>
      c.error.message == NoEnemyWithName(Prop(row, EnemyName))
    ensures c.Throw? && !c.error.AssertionError? ==> c.error == TypeError
  {
    var search := FindIn(d.enemies, e => EnemyMatches(row, e));
    if search.Raised? then Throw(search.error)
    else if row.Null? then Throw(TypeError)
    else if !SlotRenders(Prop(row, EnemyName)) then
      Throw(TypeError)
    else Assert(search.Found?, NoEnemyWithName(Prop(row, EnemyName)))
  }

  /** The second `assert` for one row: the level lookup by zone and stage,
      then the message, which converts `data.level_zone` and then
      `data.level_stage` to strings. */
  function RowHasLevel(d: Dataset, row: Value): (c: Completion)
    ensures c == Normal <==> !row.Null? && FindIn(d.levels, l => LevelMatches(row, l)).Found?
    ensures c.Throw? && c.error.AssertionError? <==>
      !row.Null? && SlotRenders(Prop(row, LevelZone)) && SlotRenders(Prop(row, LevelStage)) &&
      FindIn(d.levels, l => LevelMatches(row, l)).NotFound?
    ensures c.Throw? && c.error.AssertionError? ==>
      c.error.message == NoLevelWith(Prop(row, LevelZone), Prop(row, LevelStage))
    ensures c.Throw? && !c.error.AssertionError? ==> c.error == TypeError
  {
    var search := FindIn(d.levels, l => LevelMatches(row, l));
    if search.Raised? then Throw(search.error)
    else if row.Null? then Throw(TypeError)
    else if !(SlotRenders(Prop(row, LevelZone)) && SlotRenders(Prop(row, LevelStage))) then
      Throw(TypeError)
    else Assert(search.Found?, NoLevelWith(Prop(row, LevelZone), Prop(row, LevelStage)))
  }

  /** A row whose `enemy_name` is an object with its own "toString" key
      matches no enemy, and building the message for it throws a `TypeError`
      before the assertion can report the missing name. */
  lemma UnprintableNameThrows(d: Dataset, row: Value)
    requires row.Obj? && Key(EnemyName) in row.fields
    requires row.fields[Key(EnemyName)].Obj? && "toString" in row.fields[Key(EnemyName)].fields
    ensures RowHasEnemy(d, row) == Throw(TypeError)
  {
  }

  function RowResolves(d: Dataset, row: Value): (c: Completion)
    ensures c == Normal <==> RowHasEnemy(d, row) == Normal && RowHasLevel(d, row) == Normal
  {
    Then(RowHasEnemy(d, row), RowHasLevel(d, row))
  }

  function EnemyLevelsResolve(d: Dataset): (c: Completion)
    ensures c == Normal <==>
      d.enemyLevel.Arr? &&
      forall k :: 0 <= k < |d.enemyLevel.items| ==>
        RowHasEnemy(d, d.enemyLevel.items[k]) == Normal && RowHasLevel(d, d.enemyLevel.items[k]) == Normal
  {
    EachRecord(d.enemyLevel, row => RowResolves(d, row))
  }

  // ---------------------------------------------------------------------
  // Check 12: all enemies exist in enemy_level data.

  /** `data => data.enemy_name === enemy.name`. */
  function RowNames(enemy: Value, row: Value): (r: Verdict)
    ensures r.Raises? <==> row.Null? || enemy.Null?
    ensures r.Raises? ==> r.error == TypeError
    ensures r == Holds(true) <==>
      !row.Null? && !enemy.Null? && StrictEquals(Prop(row, EnemyName), Prop(enemy, Name))
  {
    if row.Null? || enemy.Null? then Raises(TypeError)
    else Holds(StrictEquals(Prop(row, EnemyName), Prop(enemy, Name)))
  }

  /** The lookup for one enemy, the message that converts `enemy.name` to a
      string, and the assertion. */
  function EnemyAppears(d: Dataset, enemy: Value): (c: Completion)
    ensures c == Normal <==> !enemy.Null? && FindIn(d.enemyLevel, row => RowNames(enemy, row)).Found?
    ensures c.Throw? && c.error.AssertionError? <==>
      !enemy.Null? && SlotRenders(Prop(enemy, Name)) &&
      FindIn(d.enemyLevel, row => RowNames(enemy, row)).NotFound?
    ensures c.Throw? && c.error.AssertionError? ==>
      c.error.message == NoEnemyInData(Prop(enemy, Name))
    ensures c.Throw? && !c.error.AssertionError? ==> c.error == TypeError
  {
    var search := FindIn(d.enemyLevel, row => RowNames(enemy, row));
    if search.Raised? then Throw(search.error)
    else if enemy.Null? then Throw(TypeError)
    else if !SlotRenders(Prop(enemy, Name)) then
      Throw(TypeError)
    else Assert(search.Found?, NoEnemyInData(Prop(enemy, Name)))
  }

  function EnemiesAppear(d: Dataset): (c: Completion)
    ensures c == Normal <==>
      d.enemies.Arr? &&
      forall k :: 0 <= k < |d.enemies.items| ==> EnemyAppears(d, d.enemies.items[k]) == Normal
  {
    EachRecord(d.enemies, enemy => EnemyAppears(d, enemy))
  }
}

=== FILE: completions.dfy ===
/** How the body of a check finishes: normally, or by throwing. Sequencing,
    `forEach`, the nested pairwise loop and `find` are modelled here once, with
    the first-throw-wins behaviour a JavaScript loop has when its callback
    throws. */
module Completions {
  import opened JsValues

  /** The text passed to `assert`, kept as the values it interpolates rather
      than rendered to a string. */
  datatype Message =
    | NoMessage
    | NoEnemyWithName(enemyName: Slot)
    | NoLevelWith(zone: Slot, stage: Slot)
    | NoEnemyInData(name: Slot)

  /** What a check body can throw: the `Error` raised by a failed `assert`, or
      the `TypeError` JavaScript raises when a property of `null` is read, a
      non-array is iterated, or `in` is applied to a non-object. */
  datatype Error = AssertionError(message: Message) | TypeError

  datatype Completion = Normal | Throw(error: Error)

  /** A boolean JavaScript expression that may throw while being evaluated. */
  datatype Verdict = Holds(b: bool) | Raises(error: Error)

  /** Runs `first`, then `rest` unless `first` threw. */
  function Then(first: Completion, rest: Completion): (c: Completion)
    ensures c == Normal <==> first == Normal && rest == Normal
    ensures c != Normal ==> c == first || (first == Normal && c == rest)
  {
    if first.Throw? then first else rest
  }

  /** `xs.forEach(body)`: the callback runs on each element in order and the
      first throw ends the loop. */
  function ForEach<T>(xs: seq<T>, body: T -> Completion): (c: Completion)
    ensures c == Normal <==> forall k :: 0 <= k < |xs| ==> body(xs[k]) == Normal
    ensures c != Normal ==>
      exists k :: 0 <= k < |xs| && c == body(xs[k]) &&
        forall m :: 0 <= m < k ==> body(xs[m]) == Normal
    decreases |xs|
  {
    if |xs| == 0 then Normal
    else if body(xs[0]) != Normal then body(xs[0])
    else
      var c := ForEach(xs[1..], body);
      assert forall k :: 1 <= k < |xs| ==> xs[k] == xs[1..][k - 1];
      c
  }

  /** `for (i ...) for (j = i + 1 ...) body(xs[i], xs[j])`: every ordered pair
      of distinct positions, row by row, stopping at the first throw. */
  function Pairwise<T>(xs: seq<T>, body: (T, T) -> Completion): (c: Completion)
    ensures c == Normal <==>
      forall i, j :: 0 <= i < j < |xs| ==> body(xs[i], xs[j]) == Normal
    decreases |xs|
  {
    if |xs| == 0 then Normal
    else
      var row := ForEach(xs[1..], y => body(xs[0], y));
      var rest := Pairwise(xs[1..], body);
      assert forall k :: 1 <= k < |xs| ==> xs[k] == xs[1..][k - 1];
      Then(row, rest)
  }

  /** What `xs.find(pred)` does: the first element the predicate holds of,
      `undefined` when there is none, or the error the predicate threw. */
  datatype Search = Found(item: Value) | NotFound | Raised(error: Error)

  function Find(xs: seq<Value>, pred: Value -> Verdict): (r: Search)
    ensures r.NotFound? <==> forall k :: 0 <= k < |xs| ==> pred(xs[k]) == Holds(false)
    ensures r.Found? ==>
      exists k :: 0 <= k < |xs| && r.item == xs[k] && pred(xs[k]) == Holds(true) &&
        forall m :: 0 <= m < k ==> pred(xs[m]) == Holds(false)
    ensures r.Raised? ==>
      exists k :: 0 <= k < |xs| && pred(xs[k]) == Raises(r.error) &&
        forall m :: 0 <= m < k ==> pred(xs[m]) == Holds(false)
    decreases |xs|
  {
    if |xs| == 0 then NotFound
    else
      match pred(xs[0])
      case Raises(e) => Raised(e)
      case Holds(true) => Found(xs[0])
      case Holds(false) =>
        var r := Find(xs[1..], pred);
        assert forall k :: 1 <= k < |xs| ==> xs[k] == xs[1..][k - 1];
        r
  }

  /** `Array.isArray(v)`. */
  predicate IsArray(v: Value) {
    v.Arr?
  }

  /** The `key in v` operator: true when an object has the property, false on
      an array (none of the checked fields is an array property), and a
      `TypeError` on anything that is not an object. */
  function In(f: Field, v: Value): (r: Verdict)
    ensures r == Holds(true) <==> v.Obj? && Key(f) in v.fields
    ensures r.Raises? <==> !(v.Obj? || v.Arr?)
    ensures r.Raises? ==> r.error == TypeError
  {
    match v
    case Obj(fields) => Holds(Key(f) in fields)
    case Arr(_) => Holds(false)
    case _ => Raises(TypeError)
  }
}

=== FILE: runner.dfy ===
/** The `test(name, fn)` runner: each check runs on its own, a throw inside it
    becomes that check's failure, and the run always goes on to the next. */
module Runner {
  import opened Completions

  /** The outcome `test` prints: a tick, or a cross followed by the error. */
  datatype Outcome = Pass | Fail(error: Error)

  /** One `test(name, fn)` call; `check` identifies the closure `fn`, which
      the evaluator given to the runner executes. */
  datatype Test<C> = Test(name: string, check: C)

  datatype Report = Report(name: string, outcome: Outcome)

  /** The try/catch around one check body. */
  function Execute<C, D>(eval: (C, D) -> Completion, d: D, t: Test<C>): (r: Report)
    ensures r.name == t.name
    ensures r.outcome == Pass <==> eval(t.check, d) == Normal
    ensures r.outcome.Fail? ==> eval(t.check, d) == Throw(r.outcome.error)
  {
    match eval(t.check, d)
    case Normal => Report(t.name, Pass)
    case Throw(e) => Report(t.name, Fail(e))
  }

  /** The test calls of the file, one after the other: one report per test,
      in declaration order, each depending only on its own test. */
  function Run<C, D>(eval: (C, D) -> Completion, d: D, tests: seq<Test<C>>): (r: seq<Report>)
    ensures |r| == |tests|
    ensures forall i :: 0 <= i < |tests| ==> r[i] == Execute(eval, d, tests[i])
    decreases |tests|
  {
    if |tests| == 0 then []
    else [Execute(eval, d, tests[0])] + Run(eval, d, tests[1..])
  }

  /** Every report is a pass. */
  predicate AllPass(reports: seq<Report>) {
    forall i :: 0 <= i < |reports| ==> reports[i].outcome == Pass
  }

  /** Running two lists of tests back to back is running their
      concatenation: the runner keeps no state between tests. */
  lemma RunAppend<C, D>(eval: (C, D) -> Completion, d: D, a: seq<Test<C>>, b: seq<Test<C>>)
    ensures Run(eval, d, a + b) == Run(eval, d, a) + Run(eval, d, b)
  {
  }

  /** The whole run passes exactly when every test body completes normally. */
  lemma AllPassIff<C, D>(eval: (C, D) -> Completion, d: D, tests: seq<Test<C>>)
    ensures AllPass(Run(eval, d, tests)) <==> forall i :: 0 <= i < |tests| ==> eval(tests[i].check, d) == Normal
  {
  }

  /** Some test in the list runs check `c`. */
  predicate Listed<C(==)>(tests: seq<Test<C>>, c: C) {
    exists i :: 0 <= i < |tests| && tests[i].check == c
  }

  /** When every check is listed, the run passes exactly when every check
      completes on the data. */
  lemma AllPassIffEveryCheck<C, D>(eval: (C, D) -> Completion, d: D, tests: seq<Test<C>>)
    requires forall c :: Listed(tests, c)
    ensures AllPass(Run(eval, d, tests)) <==> forall c :: eval(c, d) == Normal
  {
    AllPassIff(eval, d, tests);
    forall c | AllPass(Run(eval, d, tests))
      ensures eval(c, d) == Normal
    {
      assert Listed(tests, c);
    }
  }
}

=== FILE: tables.dfy ===
/** The three tables as typed records, and what each check means for data
    that has been written out from such records: there the checks reduce to
    plain first-order statements about names, zones and stages. */
module Tables {
  import opened JsValues
  import opened Completions
  import opened Checks

  datatype Enemy = Enemy(name: string, stompable: bool, spinable: bool, flammable: bool, starrable: bool)

  datatype Level = Level(
    zone: string, stage: string,
    stars: real, coins: real, questionBlocks: real, moneyBags: real)

  /** One row of enemy_level: an enemy appearing in the stage of a zone. */
  datatype Appearance = Appearance(enemyName: string, levelZone: string, levelStage: string, amount: real)

  datatype Tables = Tables(enemies: seq<Enemy>, levels: seq<Level>, appearances: seq<Appearance>)

  // ---------------------------------------------------------------------
  // Writing records out as the JSON the checks read.

  function EnemyValue(e: Enemy): Value {
    Obj(map[
      Key(Name) := Str(e.name),
      Key(Stompable) := Bool(e.stompable),
      Key(Spinable) := Bool(e.spinable),
      Key(Flammable) := Bool(e.flammable),
      Key(Starrable) := Bool(e.starrable)])
  }

  function LevelValue(l: Level): Value {
    Obj(map[
      Key(Zone) := Str(l.zone),
      Key(Stage) := Str(l.stage),
      Key(Stars) := Num(l.stars),
      Key(Coins) := Num(l.coins),
      Key(QuestionBlocks) := Num(l.questionBlocks),
      Key(MoneyBags) := Num(l.moneyBags)])
  }

  function AppearanceValue(a: Appearance): Value {
    Obj(map[
      Key(EnemyName) := Str(a.enemyName),
      Key(LevelZone) := Str(a.levelZone),
      Key(LevelStage) := Str(a.levelStage),
      Key(Amount) := Num(a.amount)])
  }

  function Encode(t: Tables): (d: Dataset)
    ensures d.enemies.Arr? && |d.enemies.items| == |t.enemies|
    ensures d.levels.Arr? && |d.levels.items| == |t.levels|
    ensures d.enemyLevel.Arr? && |d.enemyLevel.items| == |t.appearances|
  {
    Dataset(
      Arr(seq(|t.enemies|, k requires 0 <= k < |t.enemies| => EnemyValue(t.enemies[k]))),
      Arr(seq(|t.levels|, k requires 0 <= k < |t.levels| => LevelValue(t.levels[k]))),
      Arr(seq(|t.appearances|, k requires 0 <= k < |t.appearances| => AppearanceValue(t.appearances[k]))))
  }

  /** Reading a field of a written-out record gives back the record's field. */
  lemma EnemyReads(e: Enemy)
    ensures Prop(EnemyValue(e), Name) == Present(Str(e.name))
    ensures Prop(EnemyValue(e), Stompable) == Present(Bool(e.stompable))
    ensures Prop(EnemyValue(e), Spinable) == Present(Bool(e.spinable))
    ensures Prop(EnemyValue(e), Flammable) == Present(Bool(e.flammable))
    ensures Prop(EnemyValue(e), Starrable) == Present(Bool(e.starrable))
  {
  }

  lemma LevelReads(l: Level)
    ensures Prop(LevelValue(l), Zone) == Present(Str(l.zone))
    ensures Prop(LevelValue(l), Stage) == Present(Str(l.stage))
    ensures Prop(LevelValue(l), Stars) == Present(Num(l.stars))
    ensures Prop(LevelValue(l), Coins) == Present(Num(l.coins))
    ensures Prop(LevelValue(l), QuestionBlocks) == Present(Num(l.questionBlocks))
    ensures Prop(LevelValue(l), MoneyBags) == Present(Num(l.moneyBags))
  {
  }

  lemma AppearanceReads(a: Appearance)
    ensures Prop(AppearanceValue(a), EnemyName) == Present(Str(a.enemyName))
    ensures Prop(AppearanceValue(a), LevelZone) == Present(Str(a.levelZone))
    ensures Prop(AppearanceValue(a), LevelStage) == Present(Str(a.levelStage))
    ensures Prop(AppearanceValue(a), Amount) == Present(Num(a.amount))
  {
  }

  // ---------------------------------------------------------------------
  // The data invariants the checks enforce, stated on records.

  predicate EnemyValid(e: Enemy) {
    e.name != ""
  }

  predicate LevelValid(l: Level) {
    l.zone != "" && l.stage != "" &&
    l.stars >= 0.0 && l.coins >= 0.0 && l.questionBlocks >= 0.0 && l.moneyBags >= 0.0
  }

  predicate AppearanceValid(a: Appearance) {
    a.enemyName != "" && a.levelZone != "" && a.levelStage != "" && a.amount >= 0.0
  }

  /** No two enemies share a name, wherever they sit in the table. */
  predicate UniqueNames(es: seq<Enemy>) {
    forall i, j :: 0 <= i < j < |es| ==> es[i].name != es[j].name
  }

  /** No two levels share both zone and stage; different zones may reuse a
      stage name. */
  predicate UniqueStages(ls: seq<Level>) {
    forall i, j :: 0 <= i < j < |ls| ==> ls[i].zone != ls[j].zone || ls[i].stage != ls[j].stage
  }

  function Zones(ls: seq<Level>): set<string> {
    set l | l in ls :: l.zone
  }

  /** The appearance names an enemy of the table. */
  predicate HasEnemy(t: Tables, a: Appearance) {
    exists e :: e in t.enemies && e.name == a.enemyName
  }

  /** The appearance names a level of the table by zone and stage. */
  predicate HasLevel(t: Tables, a: Appearance) {
    exists l :: l in t.levels && l.zone == a.levelZone && l.stage == a.levelStage
  }

  /** Some appearance row names the enemy. */
  predicate Appears(t: Tables, e: Enemy) {
    exists a :: a in t.appearances && a.enemyName == e.name
  }

  // ---------------------------------------------------------------------
  // Each check on written-out tables.

  /** The shape checks (1, 2, 5 and 9) cannot fail on written-out records. */
  lemma ShapeChecksPass(t: Tables)
    ensures AllArrays(Encode(t)) == Normal
    ensures EnemiesHaveAllFields(Encode(t)) == Normal
    ensures LevelsHaveAllFields(Encode(t)) == Normal
    ensures EnemyLevelsHaveAllFields(Encode(t)) == Normal
  {
    var d := Encode(t);
    forall k | 0 <= k < |d.enemies.items|
      ensures HasKeys(d.enemies.items[k], EnemyFields)
    {
      assert d.enemies.items[k] == EnemyValue(t.enemies[k]);
    }
    forall k | 0 <= k < |d.levels.items|
      ensures HasKeys(d.levels.items[k], LevelFields)
    {
      assert d.levels.items[k] == LevelValue(t.levels[k]);
    }
    forall k | 0 <= k < |d.enemyLevel.items|
      ensures HasKeys(d.enemyLevel.items[k], EnemyLevelFields)
    {
      assert d.enemyLevel.items[k] == AppearanceValue(t.appearances[k]);
    }
  }

  lemma EnemyFieldDataIff(t: Tables)
    ensures EnemiesHaveFieldData(Encode(t)) == Normal <==> forall e :: e in t.enemies ==> EnemyValid(e)
  {
    var d := Encode(t);
    forall k | 0 <= k < |t.enemies|
      ensures EnemyShaped(d.enemies.items[k]) <==> EnemyValid(t.enemies[k])
    {
      EnemyReads(t.enemies[k]);
    }
  }

  lemma LevelFieldDataIff(t: Tables)
    ensures LevelsHaveFieldData(Encode(t)) == Normal <==> forall l :: l in t.levels ==> LevelValid(l)
  {
    var d := Encode(t);
    forall k | 0 <= k < |t.levels|
      ensures LevelShaped(d.levels.items[k]) <==> LevelValid(t.levels[k])
    {
      LevelReads(t.levels[k]);
    }
  }

  lemma AppearanceFieldDataIff(t: Tables)
    ensures EnemyLevelsHaveFieldData(Encode(t)) == Normal <==>
      forall a :: a in t.appearances ==> AppearanceValid(a)
  {
    var d := Encode(t);
    forall k | 0 <= k < |t.appearances|
      ensures EnemyLevelShaped(d.enemyLevel.items[k]) <==> AppearanceValid(t.appearances[k])
    {
      AppearanceReads(t.appearances[k]);
    }
  }

  /** The duplicate-name scan passes exactly when all names differ. */
  lemma NoDuplicateNamesIff(t: Tables)
    ensures NoDuplicateEnemyNames(Encode(t)) == Normal <==> UniqueNames(t.enemies)
  {
    var items := Encode(t).enemies.items;
    forall i, j | 0 <= i < j < |items|
      ensures NamesClash(items[i], items[j]) <==> t.enemies[i].name == t.enemies[j].name
    {
      EnemyReads(t.enemies[i]);
      EnemyReads(t.enemies[j]);
    }
  }

  /** The stage scan passes exactly when no zone holds the same stage twice. */
  lemma NoDuplicateStagesIff(t: Tables)
    ensures NoDuplicateStagesInZone(Encode(t)) == Normal <==> UniqueStages(t.levels)
  {
    var items := Encode(t).levels.items;
    forall i, j | 0 <= i < j < |items|
      ensures StagesClash(items[i], items[j]) <==>
        t.levels[i].zone == t.levels[j].zone && t.levels[i].stage == t.levels[j].stage
    {
      LevelReads(t.levels[i]);
      LevelReads(t.levels[j]);
    }
  }

  /** The zones of written-out levels are the levels' zone strings. */
  lemma ZoneSetOfTables(t: Tables)
    ensures forall k :: 0 <= k < |Encode(t).levels.items| ==> !Encode(t).levels.items[k].Null?
    ensures |ZoneSet(Encode(t).levels.items)| == |Zones(t.levels)|
  {
    var items := Encode(t).levels.items;
    forall k | 0 <= k < |t.levels|
      ensures items[k] == LevelValue(t.levels[k])
      ensures Prop(items[k], Zone) == Present(Str(t.levels[k].zone))
    {
      LevelReads(t.levels[k]);
    }
    var image := set z | z in Zones(t.levels) :: Present(Str(z));
    assert ZoneSet(items) == image by {
      forall s | s in ZoneSet(items)
        ensures s in image
      {
        var k :| 0 <= k < |items| && s == Prop(items[k], Zone);
        assert t.levels[k] in t.levels;
      }
      forall s | s in image
        ensures s in ZoneSet(items)
      {
        var z :| z in Zones(t.levels) && s == Present(Str(z));
        var l :| l in t.levels && l.zone == z;
        var k := IndexOf(t.levels, l);
        assert s == Prop(items[k], Zone);
      }
    }
    StrImageCard(Zones(t.levels));
  }

  /** Wrapping strings as JSON values loses none of them. */
  lemma {:induction false} StrImageCard(zs: set<string>)
    ensures |(set z | z in zs :: Present(Str(z)))| == |zs|
    decreases |zs|
  {
    if zs != {} {
      var z :| z in zs;
      var rest := zs - {z};
      StrImageCard(rest);
      assert (set y | y in zs :: Present(Str(y))) == (set y | y in rest :: Present(Str(y))) + {Present(Str(z))};
    }
  }

  /** The zone check passes exactly when the levels name seven zones. */
  lemma ZoneCountIffTables(t: Tables)
    ensures ZoneCount(Encode(t)) == Normal <==> |Zones(t.levels)| == ExpectedZones
  {
    var d := Encode(t);
    ZoneSetOfTables(t);
    forall k | 0 <= k < |d.levels.items|
      ensures Primitive(Prop(d.levels.items[k], Zone))
    {
      LevelReads(t.levels[k]);
    }
    ZoneCountIff(d);
  }

  /** The enemy lookup for a written-out row never throws, and finds an
      enemy exactly when the table has one of that name. */
  lemma EnemyLookup(t: Tables, a: Appearance)
    ensures var s := FindIn(Encode(t).enemies, e => EnemyMatches(AppearanceValue(a), e));
      !s.Raised? && (s.Found? <==> HasEnemy(t, a))
  {
    var items := Encode(t).enemies.items;
    var pred := e => EnemyMatches(AppearanceValue(a), e);
    AppearanceReads(a);
    forall k | 0 <= k < |items|
      ensures pred(items[k]) == Holds(t.enemies[k].name == a.enemyName)
    {
      EnemyReads(t.enemies[k]);
    }
    if HasEnemy(t, a) {
      var e :| e in t.enemies && e.name == a.enemyName;
      var k := IndexOf(t.enemies, e);
      assert pred(items[k]) == Holds(true);
    }
  }

  /** The level lookup for a written-out row never throws, and finds a level
      exactly when the table has one with that zone and stage. */
  lemma LevelLookup(t: Tables, a: Appearance)
    ensures var s := FindIn(Encode(t).levels, l => LevelMatches(AppearanceValue(a), l));
      !s.Raised? && (s.Found? <==> HasLevel(t, a))
  {
    var items := Encode(t).levels.items;
    var pred := l => LevelMatches(AppearanceValue(a), l);
    AppearanceReads(a);
    forall k | 0 <= k < |items|
      ensures pred(items[k]) ==
        Holds(t.levels[k].zone == a.levelZone && t.levels[k].stage == a.levelStage)
    {
      LevelReads(t.levels[k]);
    }
    if HasLevel(t, a) {
      var l :| l in t.levels && l.zone == a.levelZone && l.stage == a.levelStage;
      var k := IndexOf(t.levels, l);
      assert pred(items[k]) == Holds(true);
    }
  }

  /** The appearance lookup for a written-out enemy never throws, and finds
      a row exactly when one names the enemy. */
  lemma AppearanceLookup(t: Tables, e: Enemy)
    ensures var s := FindIn(Encode(t).enemyLevel, row => RowNames(EnemyValue(e), row));
      !s.Raised? && (s.Found? <==> Appears(t, e))
  {
    var items := Encode(t).enemyLevel.items;
    var pred := row => RowNames(EnemyValue(e), row);
    EnemyReads(e);
    forall k | 0 <= k < |items|
      ensures pred(items[k]) == Holds(t.appearances[k].enemyName == e.name)
    {
      AppearanceReads(t.appearances[k]);
    }
    if Appears(t, e) {
      var a :| a in t.appearances && a.enemyName == e.name;
      var k := IndexOf(t.appearances, a);
      assert pred(items[k]) == Holds(true);
    }
  }

  /** One row passes both lookups exactly when it names an existing enemy
      and an existing level. */
  lemma RowResolvesIff(t: Tables, a: Appearance)
    ensures RowHasEnemy(Encode(t), AppearanceValue(a)) == Normal <==> HasEnemy(t, a)
    ensures RowHasLevel(Encode(t), AppearanceValue(a)) == Normal <==> HasLevel(t, a)
  {
    EnemyLookup(t, a);
    LevelLookup(t, a);
  }

  /** Row by row, the written-out appearance passes both lookups exactly
      when it names an existing enemy and an existing level. */
  lemma RowsPassIff(t: Tables)
    ensures forall k :: 0 <= k < |t.appearances| ==>
      (RowPasses(Encode(t), Encode(t).enemyLevel.items[k]) <==>
       HasEnemy(t, t.appearances[k]) && HasLevel(t, t.appearances[k]))
  {
    var d := Encode(t);
    forall k | 0 <= k < |t.appearances|
      ensures RowPasses(d, d.enemyLevel.items[k]) <==> HasEnemy(t, t.appearances[k]) && HasLevel(t, t.appearances[k])
    {
      assert d.enemyLevel.items[k] == AppearanceValue(t.appearances[k]);
      RowResolvesIff(t, t.appearances[k]);
    }
  }

  /** The referential check on written-out tables passes exactly when every
      row passes both lookups. */
  lemma ResolveIffRowsPass(t: Tables)
    ensures EnemyLevelsResolve(Encode(t)) == Normal <==>
      forall k :: 0 <= k < |t.appearances| ==> RowPasses(Encode(t), Encode(t).enemyLevel.items[k])
  {
  }

  /** A property holds at every index of a sequence exactly when it holds
      for every member. */
  lemma EveryIndexIffEveryMember<T>(s: seq<T>, p: T -> bool)
    ensures (forall k :: 0 <= k < |s| ==> p(s[k])) <==> (forall x :: x in s ==> p(x))
  {
  }

  /** The referential check passes exactly when every appearance row names
      an existing enemy and an existing level. */
  lemma ReferencesIff(t: Tables)
    ensures EnemyLevelsResolve(Encode(t)) == Normal <==>
      forall a :: a in t.appearances ==> HasEnemy(t, a) && HasLevel(t, a)
  {
    ResolveIffRowsPass(t);
    RowsPassIff(t);
    EveryIndexIffEveryMember(t.appearances, a => HasEnemy(t, a) && HasLevel(t, a));
  }

  predicate RowPasses(d: Dataset, row: Value) {
    RowHasEnemy(d, row) == Normal && RowHasLevel(d, row) == Normal
  }

  /** The row does not resolve and `c` is the failure that names it: the
      missing enemy name, or else the missing zone and stage. */
  predicate FailsOnRow(t: Tables, a: Appearance, c: Completion) {
    || (!HasEnemy(t, a) && c == Throw(AssertionError(NoEnemyWithName(Present(Str(a.enemyName))))))
    || (HasEnemy(t, a) && !HasLevel(t, a) &&
        c == Throw(AssertionError(NoLevelWith(Present(Str(a.levelZone)), Present(Str(a.levelStage))))))
  }

  /** A written-out row that does not resolve fails with the message that
      names it. */
  lemma RowFailureNamesRow(t: Tables, a: Appearance)
    requires RowResolves(Encode(t), AppearanceValue(a)) != Normal
    ensures FailsOnRow(t, a, RowResolves(Encode(t), AppearanceValue(a)))
  {
    EnemyLookup(t, a);
    LevelLookup(t, a);
    AppearanceReads(a);
  }

  /** When the referential check fails, it names the row that does not
      resolve: the enemy name it lacks, or else the zone and stage. */
  lemma ReferencesFailureNamesRow(t: Tables)
    requires EnemyLevelsResolve(Encode(t)) != Normal
    ensures exists a :: a in t.appearances && FailsOnRow(t, a, EnemyLevelsResolve(Encode(t)))
  {
    var d := Encode(t);
    var k :| 0 <= k < |d.enemyLevel.items| && EnemyLevelsResolve(d) == RowResolves(d, d.enemyLevel.items[k]);
    var a := t.appearances[k];
    assert d.enemyLevel.items[k] == AppearanceValue(a);
    RowFailureNamesRow(t, a);
    assert a in t.appearances;
  }

  /** Enemy by enemy, the written-out enemy passes its lookup exactly when
      some appearance row names it. */
  lemma EnemiesAppearIff(t: Tables)
    ensures forall k :: 0 <= k < |t.enemies| ==>
      (EnemyAppears(Encode(t), Encode(t).enemies.items[k]) == Normal <==> Appears(t, t.enemies[k]))
  {
    var d := Encode(t);
    forall k | 0 <= k < |t.enemies|
      ensures EnemyAppears(d, d.enemies.items[k]) == Normal <==> Appears(t, t.enemies[k])
    {
      assert d.enemies.items[k] == EnemyValue(t.enemies[k]);
      AppearanceLookup(t, t.enemies[k]);
    }
  }

  /** The coverage check passes exactly when every enemy appears in some
      appearance row. */
  lemma CoverageIff(t: Tables)
    ensures EnemiesAppear(Encode(t)) == Normal <==> forall e :: e in t.enemies ==> Appears(t, e)
  {
    EnemiesAppearIff(t);
    EveryIndexIffEveryMember(t.enemies, e => Appears(t, e));
  }

  /** The enemy appears nowhere and `c` is the failure that names it. */
  predicate FailsOnEnemy(t: Tables, e: Enemy, c: Completion) {
    !Appears(t, e) && c == Throw(AssertionError(NoEnemyInData(Present(Str(e.name)))))
  }

  /** A written-out enemy that no row names fails with the message that
      names it. */
  lemma EnemyFailureNamesEnemy(t: Tables, e: Enemy)
    requires EnemyAppears(Encode(t), EnemyValue(e)) != Normal
    ensures FailsOnEnemy(t, e, EnemyAppears(Encode(t), EnemyValue(e)))
  {
    AppearanceLookup(t, e);
    EnemyReads(e);
  }

  /** When the coverage check fails, its message names an enemy that no
      appearance row mentions. */
  lemma CoverageFailureNamesEnemy(t: Tables)
    requires EnemiesAppear(Encode(t)) != Normal
    ensures exists e :: e in t.enemies && FailsOnEnemy(t, e, EnemiesAppear(Encode(t)))
  {
    var d := Encode(t);
    var k :| 0 <= k < |d.enemies.items| && EnemiesAppear(d) == EnemyAppears(d, d.enemies.items[k]);
    var e := t.enemies[k];
    assert d.enemies.items[k] == EnemyValue(e);
    EnemyFailureNamesEnemy(t, e);
    assert e in t.enemies;
  }
}

=== FILE: values.dfy ===
/** Parsed JSON values, and the few pieces of JavaScript semantics the data
    checks rely on: property reads, `typeof`, and strict equality. */
module JsValues {

  /** A value as the JSON import produces it. Numbers are exact reals: the
      checks only compare numbers with `>= 0` and `===`. A literal outside the
      range of a double, which the import turns into `Infinity`, is not
      represented. */
  datatype Value =
    | Null
    | Bool(b: bool)
    | Num(n: real)
    | Str(s: string)
    | Arr(items: seq<Value>)
    | Obj(fields: map<string, Value>)

  /** What a property read `v.key` yields: `undefined` when the key is absent. */
  datatype Slot = Undefined | Present(value: Value)

  /** The record fields the checks read. None of these names is an array
      index, `length`, or a property inherited from a JavaScript prototype, so
      only a JSON object can carry one of them. */
  datatype Field =
    | Name | Stompable | Spinable | Flammable | Starrable
    | Zone | Stage | Stars | Coins | QuestionBlocks | MoneyBags
    | EnemyName | LevelZone | LevelStage | Amount

  /** The property name a field is stored under in the data files. */
  function Key(f: Field): string {
    match f
    case Name => "name"
    case Stompable => "stompable"
    case Spinable => "spinable"
    case Flammable => "flammable"
    case Starrable => "starrable"
    case Zone => "zone"
    case Stage => "stage"
    case Stars => "stars"
    case Coins => "coins"
    case QuestionBlocks => "question_blocks"
    case MoneyBags => "money_bags"
    case EnemyName => "enemy_name"
    case LevelZone => "level_zone"
    case LevelStage => "level_stage"
    case Amount => "amount"
  }

  /** The property read `v.key`. Reading a property of `null` throws, so every
      caller rules that case out first; on a boolean, number, string or array
      none of the checked fields exists and the read yields `undefined`. */
  function Prop(v: Value, f: Field): (r: Slot)
    requires !v.Null?
    ensures r.Present? <==> v.Obj? && Key(f) in v.fields
    ensures r.Present? ==> r.value == v.fields[Key(f)]
  {
    match v
    case Obj(fields) => if Key(f) in fields then Present(fields[Key(f)]) else Undefined
    case _ => Undefined
  }

  /** JavaScript's `typeof`, including its quirk that `typeof null` is
      "object", as are arrays. */
  function TypeOf(s: Slot): string {
    match s
    case Undefined => "undefined"
    case Present(v) =>
      match v
      case Null => "object"
      case Bool(_) => "boolean"
      case Num(_) => "number"
      case Str(_) => "string"
      case Arr(_) => "object"
      case Obj(_) => "object"
  }

  /** True of the values `===` compares by content. */
  predicate Primitive(s: Slot) {
    s.Undefined? || !(s.value.Arr? || s.value.Obj?)
  }

  /** JavaScript's `===` between two values read from the data. Objects and
      arrays compare by identity; every object the JSON import builds is a
      distinct allocation and the checks only ever compare values taken from
      different places, so two of them are never strictly equal. Without NaN
      in JSON this is also the SameValueZero that `includes` uses. */
  predicate StrictEquals(a: Slot, b: Slot) {
    match (a, b)
    case (Undefined, Undefined) => true
    case (Present(Null), Present(Null)) => true
    case (Present(Bool(p)), Present(Bool(q))) => p == q
    case (Present(Num(m)), Present(Num(n))) => m == n
    case (Present(Str(s)), Present(Str(t))) => s == t
    case _ => false
  }

  /** On everything but objects and arrays, `===` is plain equality. */
  lemma StrictEqualsIsEquality(a: Slot, b: Slot)
    requires Primitive(a) || Primitive(b)
    ensures StrictEquals(a, b) <==> a == b
  {
  }

  /** Whether the template literal `${v}` can turn the value into a string.
      Primitives and `null` always can. An object is converted by calling its
      `toString` and then its `valueOf`; an own "toString" key of a JSON
      object shadows the inherited method with something that cannot be
      called, and the inherited `valueOf` returns the object itself, so the
      conversion throws a `TypeError`. An array is joined, converting each
      element in turn. */
  predicate Renders(v: Value) {
    match v
    case Obj(fields) => "toString" !in fields
    case Arr(items) => forall k :: 0 <= k < |items| ==> Renders(items[k])
    case _ => true
  }

  /** `${v.key}`: `undefined` renders as "undefined". */
  predicate SlotRenders(s: Slot) {
    s.Undefined? || Renders(s.value)
  }

  /** `found.includes(x)`. */
  predicate Includes(found: seq<Slot>, x: Slot) {
    exists k :: 0 <= k < |found| && StrictEquals(found[k], x)
  }
}
